=== FILE: README.md ===
# Content store of the portfolio blog, in Dafny

This project models the in-memory content store of a small blog
(`content-service.js`). The store holds two module-level lists, articles
and categories. It offers:

- read operations that return only published articles: all of them, those
  of one category, those dated on or after a date, those whose author
  contains a query string (ignoring case), and the one with a given id;
- two whole-list reads, `getAllArticles` and `getCategories`;
- `addArticle`, which normalises its input, gives it the next id
  (largest existing id plus one, or 1 for an empty store) and appends it.

Every source operation returns a promise. It resolves with its result, or
rejects with a fixed message when the result would be empty. Here each one
is a pure function over a `Store` value that returns `Result`: `Success`
for a resolved promise, `Failure(message)` for a rejected one. The read
operations take a `Store` and return only a `Result`, so by construction
they cannot change the store. `AddArticle` is a store-to-store transition.

Layout:

- `wrappers.dfy` (`Wrappers`): `Option` and `Result`.
- `text.dfy` (`Text`): ASCII lower-casing and `includes`, with a proof that
  the scan agrees with "occurs at some position".
- `filtering.dfy` (`Filtering`): `Array.prototype.filter` and `find` over
  sequences. `Filter` is proved equal to an independent definition, the
  order-preserving selection by ascending positions (`SelectsInOrder`), in
  both directions.
- `records.dfy` (`Records`): articles, categories, and the JavaScript
  truthiness of a stored `published` flag.
- `content_service.dfy` (`ContentService`): the store and its eight
  operations.
- `content_properties.dfy` (`ContentProperties`): lemmas that relate
  operations. They cover id freshness and uniqueness, reading back an
  added article, and how the filtered reads relate to the published list.
- `scenarios.dfy` (`Scenarios`): the calls of the repository's smoke script
  (`test.js`), stated as lemmas over a three-article fixture.

Behaviour of the source that the model keeps:

- Published articles come back in store order.
- An empty result rejects with the operation's message.
- `feature_image` is stored as the caller supplied it.
- `getArticlesByCategory`, `getArticlesByMinDate`, `getArticlesByAuthor`
  and `getArticleById` test `published` for truthiness.
  `getPublishedArticles` tests `published === true`. The stored flag is
  modelled as a JSON scalar (`undefined`, `null`, boolean, integer or
  string) so that this difference is visible.
  `PublishedTestsAgree` shows the two tests agree while every flag is a
  boolean, which is all that `AddArticle` ever stores.
  `StringFlagDivergence` shows they disagree for a loaded flag `"yes"`.
- `getArticleById` uses `find`, so it looks only at the FIRST article with
  the id and rejects if that one is unpublished, even when a later
  duplicate is published (`FirstCopyHidesLaterDuplicate`). With unique ids
  this is the same as "some published article has the id"
  (`GetByIdWithUniqueIds`).

## Model

| member | source | states |
|---|---|---|
| ContentService.GetPublishedArticles | content-service.js:26-34 | Resolves exactly when some article's flag is `true`. The result holds exactly those articles, in store order. Otherwise rejects with "No published articles found." |
| ContentService.GetAllArticles | content-service.js:38-46 | Resolves with the unchanged article list exactly when it is non-empty; otherwise rejects with "No articles found." |
| ContentService.GetCategories | content-service.js:49-57 | Resolves with the unchanged category list exactly when it is non-empty; otherwise rejects with "No categories found." |
| ContentService.MaxId | content-service.js:69 | The result bounds every id of the non-empty list and is the id of one of its articles. |
| ContentService.NextId | content-service.js:68-70 | The new id exceeds every existing id. It is 1 for an empty list, and otherwise one more than some existing id. |
| ContentService.AddArticle | content-service.js:60-77 | Appends exactly one record and leaves categories untouched. The record gets a fresh id, a boolean flag equal to the input's truthiness, and the caller's other fields. |
| ContentService.GetArticlesByCategory | content-service.js:89-98 | Resolves exactly when some published article has that category. The result holds exactly those articles, in store order. Otherwise rejects with the category message. |
| ContentService.GetArticlesByMinDate | content-service.js:101-112 | Resolves exactly when some published article is dated on or after `d` (inclusive). The result holds exactly those articles, in store order. Otherwise rejects with "no results returned". |
| ContentService.GetArticlesByAuthor | content-service.js:114-122 | Resolves exactly when some published article's lower-cased author contains the lower-cased query. The result holds exactly those articles, in store order. Otherwise rejects with the author message. |
| ContentService.GetArticleById | content-service.js:125-133 | Success returns the first article carrying the id, and it is published. Failure means no article has the id or the first one is unpublished. |
| ContentProperties.NextIdExactForSafeIds | content-service.js:69 | While every id is at most `Number.MAX_SAFE_INTEGER` in absolute value, the next id lies above -(2^53 - 1) and is at most 2^53, so the JavaScript sum is exact and agrees with the model. |
| ContentProperties.AddPreservesUniqueIds | content-service.js:67-70 | Pairwise-distinct ids stay pairwise distinct after an addition. |
| ContentProperties.AddPreservesBooleanFlags | content-service.js:62 | If every stored flag is a boolean, that still holds after an addition. |
| ContentProperties.AddThenGetById | content-service.js:60-77 | Looking up the new id returns the stored record if the input flag was truthy, and rejects otherwise. |
| ContentProperties.AddThenGetAll | content-service.js:74-75 | After an addition the whole list is the old list followed by the new record. |
| ContentProperties.FilterAfterAdd | content-service.js:74 | Any filter over the grown store is the old filter, plus the new record at the end if it passes. |
| ContentProperties.AddPublishedThenGetPublished | content-service.js:28 | A published addition is appended to the old published list. |
| ContentProperties.AddUnpublishedThenGetPublished | content-service.js:28 | An unpublished addition leaves the published-list outcome unchanged. |
| ContentProperties.GetByIdWithUniqueIds | content-service.js:128-131 | With unique ids, the lookup succeeds exactly when some published article has the id, and returns that article. |
| ContentProperties.FirstCopyHidesLaterDuplicate | content-service.js:128-131 | With duplicate ids, an unpublished first copy makes the lookup reject although a later copy is published. |
| ContentProperties.PublishedTestsAgree | content-service.js:28 | With boolean flags, the strict test `=== true` and the truthiness test select the same articles. |
| ContentProperties.StringFlagDivergence | content-service.js:93 | A flag loaded as `"yes"` is found by category but not listed as published. |
| ContentProperties.CategoryNarrowsPublished | content-service.js:92-94 | With boolean flags, the category result is the published list narrowed to that category, in the same order. |
| ContentProperties.MinDateMonotone | content-service.js:105-108 | Raising the date floor gives the earlier result filtered again by the new floor. |
| ContentProperties.EmptyAuthorMatchesAllPublished | content-service.js:116-118 | An empty author query selects every published article. |
| ContentProperties.AuthorQueryIgnoresCase | content-service.js:117 | Two queries equal up to ASCII case give the same outcome. |
| Filtering.Filter | content-service.js:28 | The result is no longer than the input. It holds exactly the input elements that pass the test. |
| Filtering.FilterNonEmpty | content-service.js:29-33 | The filter is non-empty exactly when some element passes. This is the condition that decides resolve versus reject. |
| Filtering.FilterMultiplicity | content-service.js:28 | A passing element occurs in the result as often as in the input; a failing one never occurs. |
| Filtering.FilterAppend | content-service.js:28 | Filtering distributes over concatenation, so the filter never reorders. |
| Filtering.FilterSelects | content-service.js:28 | The filter picks the passing positions of the input, each exactly once, in ascending order. |
| Filtering.SelectsInOrderIff | content-service.js:28 | A sequence is the ordered selection of the passing elements exactly when it equals the filter. |
| Filtering.SelectionIsFilter | content-service.js:28 | Any ordered selection of the passing positions equals the filter, so that selection is unique. |
| Filtering.FilterCompose | content-service.js:92-94 | Filtering twice is filtering once by the conjunction. |
| Filtering.FindFirst | content-service.js:128 | The result is the first position that passes, or none exactly when no position passes. |
| Text.LowerChar | content-service.js:117 | Maps `A`..`Z` to `a`..`z`, keeps every other character, and never yields an upper-case letter. |
| Text.Lower | content-service.js:117 | Same length, lower-cased character by character. |
| Text.Includes | content-service.js:117 | The empty string is always contained; a contained string is never longer than the container. |
| Text.IncludesIffOccurs | content-service.js:117 | `includes` holds exactly when the query occurs at some position. |
| Text.ContainsIgnoringCaseIff | content-service.js:117 | A case-insensitive match holds exactly when some window of the author equals the query, ignoring case. |
| Scenarios.AuthorScenario | test.js:15 | The query "Jane" finds "Jane" and, ignoring case, "Mary JANE", and skips the unpublished draft. |
| Scenarios.MinDateScenario | test.js:19 | An article dated exactly on the floor is returned; an unpublished one of that date is not. |
| Scenarios.DraftIdScenario | test.js:23 | The id of an unpublished article and a missing id both reject; a published id resolves. |
| Scenarios.AddScenarioId | test.js:27-34 | Adding to a store whose largest id is 3 assigns id 4. |
| Scenarios.AddScenarioCategory | test.js:38 | The added published article ends the category-1 listing. |

## Left out

- ContentService.NextId: ids are unbounded integers, while the source adds
  with JavaScript doubles. Outside the safe-integer range, `Math.max(...) + 1`
  can round back to the largest id (it always does at exactly 2^53, for
  example, and for a largest id of -2^60), where the model gives a fresh one.
  The model is guaranteed exact while every id is at most
  `Number.MAX_SAFE_INTEGER` (2^53 - 1) in absolute value
  (`NextIdExactForSafeIds`).
- ContentService.AddArticle: the new id is guaranteed fresh only under the
  same bound on existing ids (2^53 - 1 in absolute value). The model copies
  the input into a new record, while the source stores and resolves the
  caller's own object (content-service.js:74-75). Adding an object the store
  already holds therefore rewrites that earlier record's `published`, `id`
  and `category_id` in place and pushes it a second time, so earlier
  articles do not stay unchanged and the id repeats (ids [1] become [1, 2]
  and then [1, 3, 3]). That aliasing is not modelled. The input is also
  assumed to be a well-typed record: `addArticle(undefined)` and similar
  inputs throw a TypeError at content-service.js:62 and reject, and that
  rejection is not modelled.
- ContentProperties.AddPreservesUniqueIds: is guaranteed in the source only
  while every id is at most 2^53 - 1 in absolute value, and only when the
  added object is not already in the store. Outside that range the source's
  next id can equal the largest existing id. Re-adding a stored object
  gives that object the new id and stores it twice, so the id repeats even
  for small ids; the model, which copies the input, does not cover this.
- ContentProperties.AddThenGetAll: holds in the source only when the added
  object is not already in the store; re-adding a stored object changes the
  earlier record in place, as described for `AddArticle`.
- ContentProperties.AddThenGetById: is guaranteed in the source only while
  every id is at most 2^53 - 1 in absolute value. Outside that range the id
  can be reused, and the lookup then finds the older record that shares it.
- ContentService.GetArticlesByAuthor: records and the query are assumed to be
  strings where the source calls `toLowerCase`. A published article whose
  `author` is missing, null or a number makes the source reject with a
  TypeError instead of the author message, and so does a non-string query
  when some article is published. That rejection is not modelled.
- Stored `published` flags that are JSON objects or arrays (always truthy)
  are not modelled. The flag values covered are `undefined`, `null`,
  booleans, integers and strings.
- `initialize` reads two JSON files and parses them. That is I/O, so the
  store is given as an initial `Store` value instead.
- Promises and their asynchrony are left out. Each settled promise is a
  `Result`.
- Concurrent `addArticle` calls can race on the id, as the source's own
  comments warn. The model is sequential.
- `parseInt` on category ids and article ids is left out. Ids and category
  ids are integers already, so `NaN` inputs and string-typed ids loaded
  from JSON are not modelled.
- `new Date(...)` parsing is left out. Dates are integers that compare
  like timestamps, so invalid dates (`NaN`, which matches nothing) are not
  modelled.
- `toLowerCase` is modelled for ASCII only. Unicode case mapping is left
  out.
- JSON numbers in a `published` flag are integers here. `NaN` and
  fractional values are not modelled.
- `Math.max` over a very large array can throw a stack error in
  JavaScript. The model has no such limit.
- The source returns the live arrays, so a caller that mutates a resolved
  list changes the store. Values here are immutable, so this aliasing is
  left out.
- The caller's object is mutated in place and stored as is. Here it is
  copied into an `Article` with the eight modelled fields; any extra
  properties the caller sent are dropped.
- The Express server (`server.js`) only serves static pages. It contains
  no store logic.

=== FILE: content_properties.dfy ===
/** Properties of the content store that relate several operations: id
    freshness and uniqueness across additions, what a reader sees after an
    addition, and how the read operations relate to one another. */
module ContentProperties {
  import opened Wrappers
  import opened Text
  import opened Filtering
  import opened Records
  import opened ContentService

  /** No two articles share an id. */
  ghost predicate UniqueIds(s: seq<Article>) {
    forall i, j :: 0 <= i < j < |s| ==> s[i].id != s[j].id
  }

  /** Every stored `published` flag is a boolean (true of everything `AddArticle` stores). */
  ghost predicate BooleanFlags(s: seq<Article>) {
    forall i :: 0 <= i < |s| ==> s[i].published.Bool?
  }

  // ---------------------------------------------------------------------------
  // Adding an article

  /** The largest integer a JavaScript number holds exactly (`Number.MAX_SAFE_INTEGER`). */
  const MaxSafeInteger := 9007199254740991

  /** While every id is a safe integer (at most 2^53 - 1 in absolute value),
      the next id lies strictly between -(2^53 - 1) and 2^53 inclusive, a range
      a JavaScript number represents exactly: there `Math.max(...) + 1`
      computes the same value as `NextId`. */
  lemma NextIdExactForSafeIds(s: seq<Article>)
    requires forall i :: 0 <= i < |s| ==> -MaxSafeInteger <= s[i].id <= MaxSafeInteger
    ensures -MaxSafeInteger < NextId(s) <= MaxSafeInteger + 1
  {
  }

  /** Ids that were pairwise distinct stay pairwise distinct after an addition. */
  lemma AddPreservesUniqueIds(st: Store, input: ArticleInput)
    requires UniqueIds(st.articles)
    ensures UniqueIds(AddArticle(st, input).store.articles)
  {
    var out := AddArticle(st, input);
    var s := out.store.articles;
    forall i, j | 0 <= i < j < |s|
      ensures s[i].id != s[j].id
    {
      if j == |st.articles| {
        assert s[i] == st.articles[i];
      }
    }
  }

  /** Additions keep every stored flag a boolean. */
  lemma AddPreservesBooleanFlags(st: Store, input: ArticleInput)
    requires BooleanFlags(st.articles)
    ensures BooleanFlags(AddArticle(st, input).store.articles)
  {
  }

  /** Reading the new id back returns the stored record when the caller asked
      for it to be published, and rejects otherwise. */
  lemma AddThenGetById(st: Store, input: ArticleInput)
    ensures var out := AddArticle(st, input);
            GetArticleById(out.store, out.article.id) ==
              if Truthy(input.published) then Success(out.article) else Failure(NoArticleMessage)
  {
    var out := AddArticle(st, input);
    var s := out.store.articles;
    assert IsFirstWithId(s, out.article.id, |st.articles|);
    var r := GetArticleById(out.store, out.article.id);
    if r.Success? {
      var k :| IsFirstWithId(s, out.article.id, k) && s[k] == r.value && IsPublished(r.value);
      assert k == |st.articles|;
    }
  }

  /** After an addition the whole list is non-empty and ends with the new record. */
  lemma AddThenGetAll(st: Store, input: ArticleInput)
    ensures var out := AddArticle(st, input);
            GetAllArticles(out.store) == Success(st.articles + [out.article])
  {
  }

  /** Filtering the store after an addition is filtering before it, then
      deciding about the new record. */
  lemma FilterAfterAdd(st: Store, input: ArticleInput, p: Article -> bool)
    ensures var out := AddArticle(st, input);
            Filter(out.store.articles, p) ==
              Filter(st.articles, p) + (if p(out.article) then [out.article] else [])
  {
    var out := AddArticle(st, input);
    FilterAppend(st.articles, [out.article], p);
    assert [out.article][1..] == [];
  }

  /** A published addition appears at the end of the published list. */
  lemma AddPublishedThenGetPublished(st: Store, input: ArticleInput)
    requires Truthy(input.published)
    ensures var out := AddArticle(st, input);
            GetPublishedArticles(out.store) ==
              Success(Filter(st.articles, IsPublishedStrict) + [out.article])
  {
    FilterAfterAdd(st, input, IsPublishedStrict);
  }

  /** An unpublished addition leaves the published list as it was. */
  lemma AddUnpublishedThenGetPublished(st: Store, input: ArticleInput)
    requires !Truthy(input.published)
    ensures GetPublishedArticles(AddArticle(st, input).store) == GetPublishedArticles(st)
  {
    var out := AddArticle(st, input);
    FilterAfterAdd(st, input, IsPublishedStrict);
    var before := Filter(st.articles, IsPublishedStrict);
    assert !IsPublishedStrict(out.article);
    assert Filter(out.store.articles, IsPublishedStrict) == before + [];
    assert before + [] == before;
  }

  // ---------------------------------------------------------------------------
  // Lookup by id

  /** With unique ids, the lookup succeeds exactly when some published article
      carries the id, and then returns that article. */
  lemma GetByIdWithUniqueIds(st: Store, id: int)
    requires UniqueIds(st.articles)
    ensures GetArticleById(st, id).Success? <==>
            exists i :: 0 <= i < |st.articles| && st.articles[i].id == id && IsPublished(st.articles[i])
    ensures forall i :: 0 <= i < |st.articles| && st.articles[i].id == id && IsPublished(st.articles[i]) ==>
            GetArticleById(st, id) == Success(st.articles[i])
  {
    var s := st.articles;
    forall i | 0 <= i < |s| && s[i].id == id
      ensures IsFirstWithId(s, id, i)
    {
    }
  }

  /** Without unique ids the lookup looks only at the FIRST article with the id:
      an unpublished first copy hides a published later one. */
  lemma FirstCopyHidesLaterDuplicate()
    ensures var hidden := Article(7, "Draft", "Ann", 1, 20250101, "x", Bool(false), None);
            var shown := Article(7, "Final", "Ann", 1, 20250102, "y", Bool(true), None);
            GetArticleById(Store([hidden, shown], []), 7) == Failure(NoArticleMessage)
  {
    var hidden := Article(7, "Draft", "Ann", 1, 20250101, "x", Bool(false), None);
    var shown := Article(7, "Final", "Ann", 1, 20250102, "y", Bool(true), None);
    var st := Store([hidden, shown], []);
    assert IsFirstWithId(st.articles, 7, 0);
  }

  // ---------------------------------------------------------------------------
  // Relations between the read operations

  /** With boolean flags, the strict test of `getPublishedArticles` and the
      truthiness test of the other reads select the same articles. */
  lemma PublishedTestsAgree(st: Store)
    requires BooleanFlags(st.articles)
    ensures Filter(st.articles, IsPublishedStrict) == Filter(st.articles, IsPublished)
  {
    FilterPointwise(st.articles, IsPublishedStrict, IsPublished);
  }

  /** Without that invariant they differ: a record loaded with the flag `"yes"`
      is found by category but not listed as published. */
  lemma StringFlagDivergence()
    ensures var a := Article(1, "A", "Jane", 1, 20250101, "x", Str("yes"), None);
            var st := Store([a], [Category(1, "Tech")]);
            GetPublishedArticles(st) == Failure(NoPublishedMessage) &&
            GetArticlesByCategory(st, 1) == Success([a])
  {
    var a := Article(1, "A", "Jane", 1, 20250101, "x", Str("yes"), None);
    var st := Store([a], [Category(1, "Tech")]);
    assert Filter([a], IsPublishedStrict) == [];
    assert Filter([a], InCategory(1)) == [a];
  }

  function CategoryIs(c: int): Article -> bool {
    (a: Article) => a.category_id == c
  }

  function DatedFrom(d: Date): Article -> bool {
    (a: Article) => a.published_date >= d
  }

  /** The category read is the published list narrowed to the category, in the
      same order. */
  lemma CategoryNarrowsPublished(st: Store, c: int)
    requires BooleanFlags(st.articles)
    ensures var r := GetArticlesByCategory(st, c);
            r.Success? ==>
              GetPublishedArticles(st).Success? &&
              r.value == Filter(GetPublishedArticles(st).value, CategoryIs(c))
  {
    var s := st.articles;
    var r := GetArticlesByCategory(st, c);
    if r.Success? {
      PublishedTestsAgree(st);
      FilterCompose(s, IsPublished, CategoryIs(c), InCategory(c));
      assert r.value == Filter(s, InCategory(c));
      var i :| 0 <= i < |s| && s[i].category_id == c && IsPublished(s[i]);
      assert IsPublishedStrict(s[i]);
      var pub := GetPublishedArticles(st);
      assert pub.Success?;
      assert pub.value == Filter(s, IsPublished);
    }
  }

  /** Raising the date floor narrows the result: the later floor's result is the
      earlier floor's result filtered again, in the same order. */
  lemma MinDateMonotone(st: Store, d1: Date, d2: Date)
    requires d1 <= d2
    ensures var later := GetArticlesByMinDate(st, d2);
            later.Success? ==>
              GetArticlesByMinDate(st, d1).Success? &&
              later.value == Filter(GetArticlesByMinDate(st, d1).value, DatedFrom(d2))
  {
    var s := st.articles;
    var later := GetArticlesByMinDate(st, d2);
    if later.Success? {
      FilterCompose(s, OnOrAfter(d1), DatedFrom(d2), OnOrAfter(d2));
      assert later.value == Filter(s, OnOrAfter(d2));
      var i :| 0 <= i < |s| && IsPublished(s[i]) && s[i].published_date >= d2;
      assert OnOrAfter(d1)(s[i]);
      var earlier := GetArticlesByMinDate(st, d1);
      assert earlier.Success?;
      assert earlier.value == Filter(s, OnOrAfter(d1));
    }
  }

  /** An empty author query matches every published article. */
  lemma EmptyAuthorMatchesAllPublished(st: Store)
    ensures GetArticlesByAuthor(st, "").Success? <==>
            exists i :: 0 <= i < |st.articles| && IsPublished(st.articles[i])
    ensures GetArticlesByAuthor(st, "").Success? ==>
            GetArticlesByAuthor(st, "").value == Filter(st.articles, IsPublished)
  {
    var s := st.articles;
    forall i | 0 <= i < |s|
      ensures ByAuthor("")(s[i]) == IsPublished(s[i])
    {
      assert Lower("") == "";
    }
    FilterPointwise(s, ByAuthor(""), IsPublished);
    var r := GetArticlesByAuthor(st, "");
    if r.Success? {
      SelectsInOrderIff(r.value, s, ByAuthor(""));
    }
  }

  /** The author query is case-insensitive: queries equal up to ASCII case give
      the same outcome. */
  lemma AuthorQueryIgnoresCase(st: Store, q1: string, q2: string)
    requires Lower(q1) == Lower(q2)
    ensures GetArticlesByAuthor(st, q1) == GetArticlesByAuthor(st, q2)
  {
    FilterPointwise(st.articles, ByAuthor(q1), ByAuthor(q2));
    var r1 := GetArticlesByAuthor(st, q1);
    var r2 := GetArticlesByAuthor(st, q2);
    if r1.Success? {
      SelectsInOrderIff(r1.value, st.articles, ByAuthor(q1));
    }
    if r2.Success? {
      SelectsInOrderIff(r2.value, st.articles, ByAuthor(q2));
    }
  }
}

=== FILE: content_service.dfy ===
/** The in-memory content store: a list of articles and a list of categories,
    with read operations that keep only published articles and an operation
    that appends a new article under a fresh id. Every operation that the
    source returns as a promise is a function returning a `Result`: a resolved
    promise is `Success`, a rejected one is `Failure` with the rejection message. */
module ContentService {
  import opened Wrappers
  import opened Text
  import opened Filtering
  import opened Records

  /** The two module-level arrays. */
  datatype Store = Store(articles: seq<Article>, categories: seq<Category>)

  const NoPublishedMessage := "No published articles found."
  const NoArticlesMessage := "No articles found."
  const NoCategoriesMessage := "No categories found."
  const NoCategoryArticlesMessage := "No articles found for this category"
  const NoDateResultsMessage := "no results returned"
  const NoAuthorArticlesMessage := "No articles found for that author"
  const NoArticleMessage := "no result returned"

  /** Resolves with `xs` when it is non-empty and rejects with `msg` otherwise. */
  function NonEmptyOr<T>(xs: seq<T>, msg: string): (r: Result<seq<T>, string>)
    ensures r.Success? <==> |xs| > 0
    ensures r.Success? ==> r.value == xs
    ensures r.Failure? ==> r.error == msg
  {
    if |xs| > 0 then Success(xs) else Failure(msg)
  }

  // ---------------------------------------------------------------------------
  // Whole-list reads

  /** `getPublishedArticles`: the articles whose flag is exactly `true`, in store order. */
  function GetPublishedArticles(st: Store): (r: Result<seq<Article>, string>)
    ensures r.Success? <==> exists i :: 0 <= i < |st.articles| && IsPublishedStrict(st.articles[i])
    ensures r.Success? ==> forall a :: a in r.value <==> a in st.articles && IsPublishedStrict(a)
    ensures r.Success? ==> SelectsInOrder(r.value, st.articles, IsPublishedStrict)
    ensures r.Failure? ==> r.error == NoPublishedMessage
  {
    FilterInOrder(st.articles, IsPublishedStrict);
    FilterNonEmpty(st.articles, IsPublishedStrict);
    NonEmptyOr(Filter(st.articles, IsPublishedStrict), NoPublishedMessage)
  }

  /** `getAllArticles`: the whole article list, published or not. */
  function GetAllArticles(st: Store): (r: Result<seq<Article>, string>)
    ensures r.Success? <==> |st.articles| > 0
    ensures r.Success? ==> r.value == st.articles
    ensures r.Failure? ==> r.error == NoArticlesMessage
  {
    NonEmptyOr(st.articles, NoArticlesMessage)
  }

  /** `getCategories`: the whole category list. */
  function GetCategories(st: Store): (r: Result<seq<Category>, string>)
    ensures r.Success? <==> |st.categories| > 0
    ensures r.Success? ==> r.value == st.categories
    ensures r.Failure? ==> r.error == NoCategoriesMessage
  {
    NonEmptyOr(st.categories, NoCategoriesMessage)
  }

  // ---------------------------------------------------------------------------
  // Filtered reads

  /** Kept by `getArticlesByCategory(c)`. */
  function InCategory(c: int): Article -> bool {
    (a: Article) => a.category_id == c && IsPublished(a)
  }

  /** Kept by `getArticlesByMinDate(d)`. */
  function OnOrAfter(d: Date): Article -> bool {
    (a: Article) => IsPublished(a) && a.published_date >= d
  }

  /** Kept by `getArticlesByAuthor(q)`. */
  function ByAuthor(q: string): Article -> bool {
    (a: Article) => IsPublished(a) && ContainsIgnoringCase(a.author, q)
  }

  /** `getArticlesByCategory(c)`: published articles of category `c`, in store order. */
  function GetArticlesByCategory(st: Store, c: int): (r: Result<seq<Article>, string>)
    ensures r.Success? <==>
            exists i :: 0 <= i < |st.articles| && st.articles[i].category_id == c && IsPublished(st.articles[i])
    ensures r.Success? ==>
            forall a :: a in r.value <==> a in st.articles && a.category_id == c && IsPublished(a)
    ensures r.Success? ==> SelectsInOrder(r.value, st.articles, InCategory(c))
    ensures r.Failure? ==> r.error == NoCategoryArticlesMessage
  {
    FilterInOrder(st.articles, InCategory(c));
    FilterNonEmpty(st.articles, InCategory(c));
    NonEmptyOr(Filter(st.articles, InCategory(c)), NoCategoryArticlesMessage)
  }

  /** `getArticlesByMinDate(d)`: published articles dated `d` or later, in store order. */
  function GetArticlesByMinDate(st: Store, d: Date): (r: Result<seq<Article>, string>)
    ensures r.Success? <==>
            exists i :: 0 <= i < |st.articles| && IsPublished(st.articles[i]) && st.articles[i].published_date >= d
    ensures r.Success? ==>
            forall a :: a in r.value <==> a in st.articles && IsPublished(a) && a.published_date >= d
    ensures r.Success? ==> SelectsInOrder(r.value, st.articles, OnOrAfter(d))
    ensures r.Failure? ==> r.error == NoDateResultsMessage
  {
    FilterInOrder(st.articles, OnOrAfter(d));
    FilterNonEmpty(st.articles, OnOrAfter(d));
    NonEmptyOr(Filter(st.articles, OnOrAfter(d)), NoDateResultsMessage)
  }

  /** `getArticlesByAuthor(q)`: published articles whose author contains `q`,
      ignoring ASCII case, in store order. */
  function GetArticlesByAuthor(st: Store, q: string): (r: Result<seq<Article>, string>)
    ensures r.Success? <==>
            exists i :: 0 <= i < |st.articles| && IsPublished(st.articles[i]) &&
                        ContainsIgnoringCase(st.articles[i].author, q)
    ensures r.Success? ==>
            forall a :: a in r.value <==> a in st.articles && IsPublished(a) && ContainsIgnoringCase(a.author, q)
    ensures r.Success? ==> SelectsInOrder(r.value, st.articles, ByAuthor(q))
    ensures r.Failure? ==> r.error == NoAuthorArticlesMessage
  {
    FilterInOrder(st.articles, ByAuthor(q));
    FilterNonEmpty(st.articles, ByAuthor(q));
    NonEmptyOr(Filter(st.articles, ByAuthor(q)), NoAuthorArticlesMessage)
  }

  // ---------------------------------------------------------------------------
  // Lookup by id

  /** Position `k` holds the first article of `s` with id `id`. */
  ghost predicate IsFirstWithId(s: seq<Article>, id: int, k: int) {
    0 <= k < |s| && s[k].id == id && forall j :: 0 <= j < k ==> s[j].id != id
  }

  function HasId(id: int): Article -> bool {
    (a: Article) => a.id == id
  }

  /** `getArticleById(id)`: the FIRST article carrying `id`, provided that
      article is published; a missing id and an unpublished first match both reject. */
  function GetArticleById(st: Store, id: int): (r: Result<Article, string>)
    ensures r.Success? ==>
            exists k :: IsFirstWithId(st.articles, id, k) && st.articles[k] == r.value && IsPublished(r.value)
    ensures r.Failure? ==>
            r.error == NoArticleMessage &&
            forall k :: IsFirstWithId(st.articles, id, k) ==> !IsPublished(st.articles[k])
  {
    match FindFirst(st.articles, HasId(id))
    case Some(k) =>
      assert IsFirstWithId(st.articles, id, k);
      if IsPublished(st.articles[k]) then Success(st.articles[k]) else Failure(NoArticleMessage)
    case None => Failure(NoArticleMessage)
  }

  // ---------------------------------------------------------------------------
  // Adding an article

  /** The caller-supplied fields of a new article; `published` is whatever the
      caller sent (a form checkbox value, a boolean, or nothing). */
  datatype ArticleInput = ArticleInput(
    title: string,
    author: string,
    category_id: int,
    published_date: Date,
    content: string,
    published: JsValue,
    feature_image: Option<string>)

  /** `Math.max` over the ids of a non-empty list. */
  function MaxId(s: seq<Article>): (m: int)
    requires |s| > 0
    ensures forall i :: 0 <= i < |s| ==> s[i].id <= m
    ensures exists i :: 0 <= i < |s| && s[i].id == m
  {
    if |s| == 1 then s[0].id
    else
      var rest := MaxId(s[1..]);
      if s[0].id >= rest then s[0].id else rest
  }

  /** The id the next added article receives: one past the largest id, or 1 for an empty list. */
  function NextId(s: seq<Article>): (n: int)
    ensures forall i :: 0 <= i < |s| ==> s[i].id < n
    ensures |s| == 0 ==> n == 1
    ensures |s| > 0 ==> exists i :: 0 <= i < |s| && s[i].id == n - 1
  {
    if |s| > 0 then MaxId(s) + 1 else 1
  }

  /** The store after an addition, and the record that was stored (and resolved). */
  datatype Added = Added(store: Store, article: Article)

  /** `addArticle(input)`: normalise the flag to a boolean, assign the next id,
      append the record to the article list and resolve with it. */
  function AddArticle(st: Store, input: ArticleInput): (out: Added)
    ensures out.store.articles == st.articles + [out.article]
    ensures out.store.categories == st.categories
    ensures forall i :: 0 <= i < |st.articles| ==> st.articles[i].id < out.article.id
    ensures |st.articles| == 0 ==> out.article.id == 1
    ensures |st.articles| > 0 ==> exists i :: 0 <= i < |st.articles| && st.articles[i].id == out.article.id - 1
    ensures out.article.published.Bool?
    ensures IsPublished(out.article) <==> Truthy(input.published)
    ensures out.article.title == input.title && out.article.author == input.author
    ensures out.article.category_id == input.category_id
    ensures out.article.published_date == input.published_date
    ensures out.article.content == input.content
    ensures out.article.feature_image == input.feature_image
  {
    var a := Article(NextId(st.articles), input.title, input.author, input.category_id,
                     input.published_date, input.content, Bool(Truthy(input.published)),
                     input.feature_image);
    Added(Store(st.articles + [a], st.categories), a)
  }
}

=== FILE: filtering.dfy ===
/** `Array.prototype.filter` and `Array.prototype.find` over immutable sequences. */
module Filtering {
  import opened Wrappers

  /** The elements of `s` that satisfy `p`, in their order in `s`. */
  function Filter<T(!new)>(s: seq<T>, p: T -> bool): (r: seq<T>)
    ensures |r| <= |s|
    ensures forall x :: x in r <==> x in s && p(x)
  {
    if |s| == 0 then []
    else
      (if p(s[0]) then [s[0]] else []) + Filter(s[1..], p)
  }

  /** The filter is non-empty exactly when some element satisfies `p`. */
  lemma FilterNonEmpty<T(!new)>(s: seq<T>, p: T -> bool)
    ensures |Filter(s, p)| > 0 <==> exists i :: 0 <= i < |s| && p(s[i])
  {
    if exists i :: 0 <= i < |s| && p(s[i]) {
      var i :| 0 <= i < |s| && p(s[i]);
      assert s[i] in Filter(s, p);
    }
  }

  /** `r` holds the elements of `s` at the positions `idx`. */
  ghost predicate Picks<T>(r: seq<T>, s: seq<T>, idx: seq<nat>) {
    |idx| == |r| && forall k :: 0 <= k < |idx| ==> idx[k] < |s| && r[k] == s[idx[k]]
  }

  ghost predicate Ascending(idx: seq<nat>) {
    forall k, l :: 0 <= k < l < |idx| ==> idx[k] < idx[l]
  }

  /** `idx` holds exactly the positions of `s` whose elements satisfy `p`. */
  ghost predicate Covers<T>(s: seq<T>, p: T -> bool, idx: seq<nat>) {
    forall j :: 0 <= j < |s| ==> (p(s[j]) <==> j in idx)
  }

  /** `idx` lists, in strictly ascending order, exactly the positions of `s`
      whose elements satisfy `p`, and `r` holds the elements at those positions:
      `r` is the order-preserving selection of `s` by `p`. */
  ghost predicate IsSelection<T>(r: seq<T>, s: seq<T>, p: T -> bool, idx: seq<nat>) {
    Picks(r, s, idx) && Ascending(idx) && Covers(s, p, idx)
  }

  /** `r` is the order-preserving selection of `s` by `p`. */
  ghost predicate SelectsInOrder<T>(r: seq<T>, s: seq<T>, p: T -> bool) {
    exists idx :: IsSelection(r, s, p, idx)
  }

  ghost function Shift(t: seq<nat>): (u: seq<nat>)
    ensures |u| == |t|
    ensures forall k :: 0 <= k < |t| ==> u[k] == t[k] + 1
  {
    seq(|t|, k requires 0 <= k < |t| => t[k] + 1)
  }

  /** The positions `Filter` keeps, in ascending order. */
  ghost function FilterIndices<T>(s: seq<T>, p: T -> bool): seq<nat>
    decreases |s|
  {
    if |s| == 0 then []
    else (if p(s[0]) then [0] else []) + Shift(FilterIndices(s[1..], p))
  }

  lemma PicksCons<T>(s: seq<T>, p: T -> bool, r': seq<T>, idx': seq<nat>)
    requires |s| > 0
    requires Picks(r', s[1..], idx')
    ensures Picks((if p(s[0]) then [s[0]] else []) + r', s, (if p(s[0]) then [0] else []) + Shift(idx'))
  {
    var headIdx: seq<nat> := if p(s[0]) then [0] else [];
    var r := (if p(s[0]) then [s[0]] else []) + r';
    var idx := headIdx + Shift(idx');
    forall k | 0 <= k < |idx|
      ensures idx[k] < |s| && r[k] == s[idx[k]]
    {
      if k >= |headIdx| {
        var k' := k - |headIdx|;
        assert idx[k] == idx'[k'] + 1;
        assert r[k] == r'[k'];
      }
    }
  }

  lemma AscendingCons(head: seq<nat>, idx': seq<nat>)
    requires head == [] || head == [0]
    requires Ascending(idx')
    ensures Ascending(head + Shift(idx'))
  {
    var idx := head + Shift(idx');
    forall k, l | 0 <= k < l < |idx|
      ensures idx[k] < idx[l]
    {
      assert idx[l] == idx'[l - |head|] + 1;
      if k >= |head| {
        assert idx[k] == idx'[k - |head|] + 1;
      }
    }
  }

  lemma CoversCons<T>(s: seq<T>, p: T -> bool, idx': seq<nat>)
    requires |s| > 0
    requires Covers(s[1..], p, idx')
    ensures Covers(s, p, (if p(s[0]) then [0] else []) + Shift(idx'))
  {
    var t := s[1..];
    var headIdx: seq<nat> := if p(s[0]) then [0] else [];
    var idx := headIdx + Shift(idx');
    forall j | 0 <= j < |s|
      ensures p(s[j]) <==> j in idx
    {
      if j == 0 {
        assert forall k :: 0 <= k < |idx'| ==> Shift(idx')[k] != 0;
      } else {
        assert s[j] == t[j - 1];
        if j - 1 in idx' {
          var k :| 0 <= k < |idx'| && idx'[k] == j - 1;
          assert idx[|headIdx| + k] == j;
        }
        if j in idx {
          var k :| 0 <= k < |idx| && idx[k] == j;
          assert k >= |headIdx|;
          assert idx'[k - |headIdx|] == j - 1;
        }
      }
    }
  }

  /** `Filter` is the order-preserving selection: it keeps every element that
      satisfies `p`, drops every other one, and never reorders. */
  lemma {:induction false} FilterSelects<T(!new)>(s: seq<T>, p: T -> bool)
    ensures IsSelection(Filter(s, p), s, p, FilterIndices(s, p))
    decreases |s|
  {
    if |s| > 0 {
      FilterSelects(s[1..], p);
      var r', idx' := Filter(s[1..], p), FilterIndices(s[1..], p);
      PicksCons(s, p, r', idx');
      AscendingCons(if p(s[0]) then [0] else [], idx');
      CoversCons(s, p, idx');
    }
  }

  /** `Filter(s, p)` is the order-preserving selection of `s` by `p`. */
  lemma FilterInOrder<T(!new)>(s: seq<T>, p: T -> bool)
    ensures SelectsInOrder(Filter(s, p), s, p)
  {
    FilterSelects(s, p);
  }

  ghost function Unshift(t: seq<nat>): (u: seq<nat>)
    requires forall k :: 0 <= k < |t| ==> t[k] > 0
    ensures |u| == |t|
    ensures forall k :: 0 <= k < |t| ==> u[k] == t[k] - 1
  {
    seq(|t|, k requires 0 <= k < |t| => t[k] - 1)
  }

  /** Dropping the head of `s`: a selection whose positions all lie in the tail
      is, shifted down by one, a selection of the tail. */
  lemma SelectionTail<T>(r: seq<T>, s: seq<T>, p: T -> bool, idx: seq<nat>)
    requires |s| > 0 && !p(s[0])
    requires IsSelection(r, s, p, idx)
    ensures forall k :: 0 <= k < |idx| ==> idx[k] > 0
    ensures IsSelection(r, s[1..], p, Unshift(idx))
  {
    assert 0 !in idx;
    var u := Unshift(idx);
    forall j | 0 <= j < |s| - 1
      ensures p(s[1..][j]) <==> j in u
    {
      assert s[1..][j] == s[j + 1];
      if j + 1 in idx {
        var k :| 0 <= k < |idx| && idx[k] == j + 1;
        assert u[k] == j;
      }
    }
  }

  /** When the head is kept, it is the first selected position. */
  lemma SelectionStartsAtHead<T>(r: seq<T>, s: seq<T>, p: T -> bool, idx: seq<nat>)
    requires |s| > 0 && p(s[0])
    requires IsSelection(r, s, p, idx)
    ensures |idx| > 0 && idx[0] == 0 && r[0] == s[0]
  {
    assert 0 in idx;
    var k0 :| 0 <= k0 < |idx| && idx[k0] == 0;
  }

  /** A selection whose first kept position is 0 continues, after it, as a
      selection of the tail. */
  lemma SelectionHead<T>(r: seq<T>, s: seq<T>, p: T -> bool, idx: seq<nat>)
    requires |s| > 0 && p(s[0])
    requires IsSelection(r, s, p, idx)
    ensures |idx| > 0 && r[0] == s[0]
    ensures forall k :: 0 <= k < |idx[1..]| ==> idx[1..][k] > 0
    ensures IsSelection(r[1..], s[1..], p, Unshift(idx[1..]))
  {
    SelectionStartsAtHead(r, s, p, idx);
    var tail := idx[1..];
    assert forall k :: 0 <= k < |tail| ==> tail[k] == idx[k + 1] && idx[0] < idx[k + 1];
    var u := Unshift(tail);
    assert Picks(r[1..], s[1..], u) by {
      forall k | 0 <= k < |u|
        ensures u[k] < |s| - 1 && r[1..][k] == s[1..][u[k]]
      {
        assert r[1..][k] == r[k + 1];
      }
    }
    assert Ascending(u) by {
      forall k, l | 0 <= k < l < |u|
        ensures u[k] < u[l]
      {
        assert idx[k + 1] < idx[l + 1];
      }
    }
    forall j | 0 <= j < |s| - 1
      ensures p(s[1..][j]) <==> j in u
    {
      assert s[1..][j] == s[j + 1];
      if j + 1 in idx {
        var k :| 0 <= k < |idx| && idx[k] == j + 1;
        assert k > 0;
        assert u[k - 1] == j;
      }
    }
  }

  /** The order-preserving selection is unique, and it is `Filter`: no other
      sequence selects the elements satisfying `p` in order. */
  lemma {:induction false} SelectionIsFilter<T(!new)>(r: seq<T>, s: seq<T>, p: T -> bool, idx: seq<nat>)
    requires IsSelection(r, s, p, idx)
    ensures r == Filter(s, p)
    decreases |s|
  {
    if |s| == 0 {
    } else if p(s[0]) {
      SelectionHead(r, s, p, idx);
      SelectionIsFilter(r[1..], s[1..], p, Unshift(idx[1..]));
      assert r == [r[0]] + r[1..];
    } else {
      SelectionTail(r, s, p, idx);
      SelectionIsFilter(r, s[1..], p, Unshift(idx));
    }
  }

  /** `SelectsInOrder` characterises `Filter` completely. */
  lemma SelectsInOrderIff<T(!new)>(r: seq<T>, s: seq<T>, p: T -> bool)
    ensures SelectsInOrder(r, s, p) <==> r == Filter(s, p)
  {
    if SelectsInOrder(r, s, p) {
      var idx :| IsSelection(r, s, p, idx);
      SelectionIsFilter(r, s, p, idx);
    } else {
      FilterInOrder(s, p);
    }
  }

  /** Each kept element occurs in the result exactly as often as in `s`;
      every other element does not occur at all. */
  lemma {:induction false} FilterMultiplicity<T(!new)>(s: seq<T>, p: T -> bool)
    ensures forall x :: multiset(Filter(s, p))[x] == if p(x) then multiset(s)[x] else 0
    decreases |s|
  {
    if |s| > 0 {
      FilterMultiplicity(s[1..], p);
      assert s == [s[0]] + s[1..];
      assert multiset(s) == multiset([s[0]]) + multiset(s[1..]);
    }
  }

  /** Filtering distributes over concatenation: together with the one-element
      case this pins down the order of the result. */
  lemma {:induction false} FilterAppend<T(!new)>(a: seq<T>, b: seq<T>, p: T -> bool)
    ensures Filter(a + b, p) == Filter(a, p) + Filter(b, p)
    decreases |a|
  {
    if |a| == 0 {
      assert a + b == b;
    } else {
      assert (a + b)[1..] == a[1..] + b;
      FilterAppend(a[1..], b, p);
    }
  }

  /** The one-element case: `x` is kept exactly when it satisfies `p`. */
  lemma FilterSingleton<T(!new)>(x: T, p: T -> bool)
    ensures Filter([x], p) == if p(x) then [x] else []
  {
    assert [x][1..] == [];
  }

  /** Filters with pointwise-equal predicates agree. */
  lemma {:induction false} FilterPointwise<T(!new)>(s: seq<T>, p: T -> bool, q: T -> bool)
    requires forall i :: 0 <= i < |s| ==> p(s[i]) == q(s[i])
    ensures Filter(s, p) == Filter(s, q)
    decreases |s|
  {
    if |s| > 0 {
      FilterPointwise(s[1..], p, q);
    }
  }

  /** Filtering by `p` and then by `q` is filtering once by their conjunction `pq`. */
  lemma {:induction false} FilterCompose<T(!new)>(s: seq<T>, p: T -> bool, q: T -> bool, pq: T -> bool)
    requires forall i :: 0 <= i < |s| ==> pq(s[i]) == (p(s[i]) && q(s[i]))
    ensures Filter(Filter(s, p), q) == Filter(s, pq)
    decreases |s|
  {
    if |s| > 0 {
      FilterCompose(s[1..], p, q, pq);
      var head := if p(s[0]) then [s[0]] else [];
      FilterAppend(head, Filter(s[1..], p), q);
    }
  }

  /** `Array.prototype.find`, by position: the first index whose element satisfies `p`. */
  function FindFirst<T>(s: seq<T>, p: T -> bool): (r: Option<nat>)
    ensures r.Some? ==> r.value < |s| && p(s[r.value])
    ensures r.Some? ==> forall j :: 0 <= j < r.value ==> !p(s[j])
    ensures r.None? <==> forall j :: 0 <= j < |s| ==> !p(s[j])
  {
    if |s| == 0 then None
    else if p(s[0]) then Some(0)
    else match FindFirst(s[1..], p)
      case None => None
      case Some(k) => Some(k + 1)
  }
}

=== FILE: records.dfy ===
/** The records the content store holds: articles and categories, as parsed
    from the store's JSON data. */
module Records {
  import opened Wrappers

  /** The scalar JSON values a record's `published` flag can hold. Numbers are
      integers here, and objects and arrays are not covered. */
  datatype JsValue = Undefined | Null | Bool(b: bool) | Number(n: int) | Str(s: string)

  /** JavaScript truthiness: `undefined`, `null`, `false`, `0` and `""` are falsy. */
  predicate Truthy(v: JsValue) {
    match v
    case Undefined => false
    case Null => false
    case Bool(b) => b
    case Number(n) => n != 0
    case Str(s) => |s| > 0
  }

  /** A point in time, as the number `new Date(...)` compares by. */
  type Date = int

  datatype Category = Category(id: int, name: string)

  datatype Article = Article(
    id: int,
    title: string,
    author: string,
    category_id: int,
    published_date: Date,
    content: string,
    published: JsValue,
    feature_image: Option<string>)

  /** The strict test `article.published === true`. */
  predicate IsPublishedStrict(a: Article) {
    a.published == Bool(true)
  }

  /** The truthiness test `article.published` used in a boolean context. */
  predicate IsPublished(a: Article) {
    Truthy(a.published)
  }
}

=== FILE: scenarios.dfy ===
/** Concrete walk-throughs of the store on a small fixture, following the
    calls the repository's smoke script makes. */
module Scenarios {
  import opened Wrappers
  import opened Text
  import opened Filtering
  import opened Records
  import opened ContentService
  import ContentProperties

  const Jane := Article(1, "A", "Jane", 1, 20250101, "x", Bool(true), None)
  const Draft := Article(2, "B", "Bob", 2, 20250620, "y", Bool(false), None)
  const MaryJane := Article(3, "C", "Mary JANE", 1, 20250620, "z", Bool(true), None)

  const Fixture := Store([Jane, Draft, MaryJane], [Category(1, "Tech")])

  /** Unfolds a filter over the three-article fixture. */
  lemma FilterFixture(p: Article -> bool)
    ensures Filter(Fixture.articles, p) ==
            (if p(Jane) then [Jane] else []) + (if p(Draft) then [Draft] else []) +
            (if p(MaryJane) then [MaryJane] else [])
  {
    assert Fixture.articles == [Jane] + [Draft] + [MaryJane];
    FilterAppend([Jane] + [Draft], [MaryJane], p);
    FilterAppend([Jane], [Draft], p);
    FilterSingleton(Jane, p);
    FilterSingleton(Draft, p);
    FilterSingleton(MaryJane, p);
  }

  lemma JaneMatches()
    ensures ByAuthor("Jane")(Jane)
  {
    assert Lower("Jane") == "jane";
    assert Includes("jane", "jane");
  }

  lemma MaryJaneMatches()
    ensures ByAuthor("Jane")(MaryJane)
  {
    assert Lower("Jane") == "jane";
    assert Lower("Mary JANE") == "mary jane";
    assert OccursAt("mary jane", "jane", 5) by {
      assert "mary jane"[5..9] == "jane";
    }
    IncludesIffOccurs("mary jane", "jane");
  }

  /** The author query "Jane" matches "Jane" and, ignoring case, "Mary JANE";
      it skips the unpublished draft. */
  lemma AuthorScenario()
    ensures GetArticlesByAuthor(Fixture, "Jane") == Success([Jane, MaryJane])
  {
    var p := ByAuthor("Jane");
    JaneMatches();
    MaryJaneMatches();
    assert !p(Draft);
    FilterFixture(p);
    assert Filter(Fixture.articles, p) == [Jane] + [] + [MaryJane];
    assert Filter(Fixture.articles, p) == [Jane, MaryJane];
  }

  /** The date floor is inclusive: an article dated exactly on it is returned;
      the unpublished draft of the same date is not. */
  lemma MinDateScenario()
    ensures GetArticlesByMinDate(Fixture, 20250620) == Success([MaryJane])
  {
    var p := OnOrAfter(20250620);
    assert !p(Jane) && !p(Draft) && p(MaryJane);
    FilterFixture(p);
    assert Filter(Fixture.articles, p) == [MaryJane];
  }

  /** An id that exists but belongs to an unpublished article is rejected like a
      missing one. */
  lemma DraftIdScenario()
    ensures GetArticleById(Fixture, 2) == Failure(NoArticleMessage)
    ensures GetArticleById(Fixture, 9) == Failure(NoArticleMessage)
    ensures GetArticleById(Fixture, 1) == Success(Jane)
  {
    assert IsFirstWithId(Fixture.articles, 2, 1);
    assert IsFirstWithId(Fixture.articles, 1, 0);
  }

  const TestInput := ArticleInput("Test Article", "Tester", 1, 20250702,
                                  "This is a test article", Bool(true), None)

  /** Adding to the fixture assigns id 4: one past the largest id 3. */
  lemma AddScenarioId()
    ensures AddArticle(Fixture, TestInput).article.id == 4
  {
    var s := Fixture.articles;
    assert s[1..] == [Draft, MaryJane];
    assert s[1..][1..] == [MaryJane];
    assert MaxId([MaryJane]) == 3;
    assert MaxId([Draft, MaryJane]) == 3;
    assert MaxId(s) == 3;
  }

  /** The added published article goes to the end of its category's listing. */
  lemma AddScenarioCategory()
    ensures var out := AddArticle(Fixture, TestInput);
            GetArticlesByCategory(out.store, 1) == Success([Jane, MaryJane, out.article])
  {
    var out := AddArticle(Fixture, TestInput);
    var p := InCategory(1);
    assert p(Jane) && !p(Draft) && p(MaryJane) && p(out.article);
    FilterFixture(p);
    assert Filter(Fixture.articles, p) == [Jane, MaryJane];
    ContentProperties.FilterAfterAdd(Fixture, TestInput, p);
    var kept := Filter(out.store.articles, p);
    assert kept == [Jane, MaryJane] + [out.article];
    assert kept == [Jane, MaryJane, out.article];
    assert GetArticlesByCategory(out.store, 1) == NonEmptyOr(kept, NoCategoryArticlesMessage);
  }
}

=== FILE: text.dfy ===
/** ASCII lower-casing and substring search, standing in for
    `String.prototype.toLowerCase` and `String.prototype.includes`. */
module Text {

  predicate IsUpperAscii(c: char) {
    'A' <= c <= 'Z'
  }

  /** Lower-cases one character: `A`..`Z` move to `a`..`z`, everything else is kept. */
  function LowerChar(c: char): (d: char)
    ensures !IsUpperAscii(d)
    ensures IsUpperAscii(c) ==> d as int == c as int + ('a' as int - 'A' as int)
    ensures !IsUpperAscii(c) ==> d == c
  {
    if IsUpperAscii(c) then (c as int + ('a' as int - 'A' as int)) as char else c
  }

  /** Lower-cases a string character by character. */
  function Lower(s: string): (r: string)
    ensures |r| == |s|
    ensures forall i :: 0 <= i < |s| ==> r[i] == LowerChar(s[i])
  {
    seq(|s|, i requires 0 <= i < |s| => LowerChar(s[i]))
  }

  /** Lower-casing commutes with taking a slice. */
  lemma LowerSlice(s: string, i: nat, j: nat)
    requires i <= j <= |s|
    ensures Lower(s)[i..j] == Lower(s[i..j])
  {
  }

  /** `s` contains `t` at position `i`. */
  ghost predicate OccursAt(s: string, t: string, i: int) {
    0 <= i && i + |t| <= |s| && s[i..i + |t|] == t
  }

  /** `s.includes(t)`: a scan over the start positions of `s`, trying `t` as a prefix of each suffix. */
  function Includes(s: string, t: string): (b: bool)
    ensures |t| == 0 ==> b
    ensures b ==> |t| <= |s|
    decreases |s|
  {
    if t <= s then true
    else if |s| == 0 then false
    else Includes(s[1..], t)
  }

  /** The scan finds `t` exactly when `t` occurs somewhere in `s`. */
  lemma {:induction false} IncludesIffOccurs(s: string, t: string)
    ensures Includes(s, t) <==> exists i :: OccursAt(s, t, i)
    decreases |s|
  {
    if t <= s {
      assert s[0..|t|] == t;
      assert OccursAt(s, t, 0);
    } else if |s| == 0 {
      assert |t| > 0;
    } else {
      IncludesIffOccurs(s[1..], t);
      if exists i :: OccursAt(s[1..], t, i) {
        var i :| OccursAt(s[1..], t, i);
        assert s[1..][i..i + |t|] == s[i + 1..i + 1 + |t|];
        assert OccursAt(s, t, i + 1);
      }
      if exists i :: OccursAt(s, t, i) {
        var i :| OccursAt(s, t, i);
        assert s[1..][i - 1..i - 1 + |t|] == s[i..i + |t|];
        assert OccursAt(s[1..], t, i - 1);
      }
    }
  }

  /** Case-insensitive containment, as `a.toLowerCase().includes(q.toLowerCase())`. */
  predicate ContainsIgnoringCase(a: string, q: string) {
    Includes(Lower(a), Lower(q))
  }

  /** The window of `a` at `i`, as long as `q`, equals `q` up to ASCII case. */
  ghost predicate WindowMatches(a: string, q: string, i: int) {
    0 <= i && i + |q| <= |a| && Lower(a[i..i + |q|]) == Lower(q)
  }

  /** Case-insensitive containment holds exactly when some window of `a`,
      lower-cased, equals `q` lower-cased. */
  lemma ContainsIgnoringCaseIff(a: string, q: string)
    ensures ContainsIgnoringCase(a, q) <==> exists i :: WindowMatches(a, q, i)
  {
    IncludesIffOccurs(Lower(a), Lower(q));
    if ContainsIgnoringCase(a, q) {
      var i :| OccursAt(Lower(a), Lower(q), i);
      LowerSlice(a, i, i + |q|);
      assert WindowMatches(a, q, i);
    }
    if exists i :: WindowMatches(a, q, i) {
      var i :| WindowMatches(a, q, i);
      LowerSlice(a, i, i + |q|);
      assert OccursAt(Lower(a), Lower(q), i);
    }
  }
}

=== FILE: wrappers.dfy ===
/** Failure-carrying values used in place of the source's promises and `undefined`. */
module Wrappers {

  /** A value that may be absent (`undefined` in the source). */
  datatype Option<+T> = None | Some(value: T)

  /** A settled promise: resolved with a value, or rejected with an error. */
  datatype Result<+R, +E> = Success(value: R) | Failure(error: E)
}
